=== FILE: README.md ===
# Melange identity provisioning and user login, modelled in Dafny

This project models three pieces of sequential logic from the Melange application:

- **`SaveIdentity.Handle`** (`save_identity.dfy`). The server-side handler creates a new
  cryptographic identity. It registers the identity on a message server, registers an alias for
  it on a tracker, stores the identity row and the alias row, and records the identity as
  `current_identity`. The handler is modelled as a pure function. Its input `Env` gives the
  outcome of every call the handler makes: body decoding, key generation, the Packager's server
  and tracker lookups, the dap and router registrations, the record encoder, the two table
  inserts and the key-value store write. It returns the response and the trace of calls made, in
  order. A failing call is the last one in the trace. No call is retried and none is undone.
- **The User model** (`users.dfy`): `User.String` and `User.Validate`. It also covers the
  authentication decision over the rows a username query returns, `CreateUser`, and the
  `Transient` flag that makes `Save` an insert or an update.
- **The App controller's actions** (`app.dfy`): `Logout` and `ProcessLogin` update a session map,
  and `ProcessRegistration` validates the form and then creates and saves a user.
  `Decimal.Itoa` (`decimal.dfy`) models `strconv.Itoa`, which writes the user id into the session.
  An independent reader, `Decimal.ParseDecimal`, is proved to invert it.

The handler is also checked against a reference step machine. In that machine, stage *i*
succeeds when `Passes(env)[i]` holds, and the first failing stage ends the run.
`HandleIsLinear` proves two things. The handler's trace is exactly the prefix of the stage list
that this machine runs. The handler answers `{"error": false}` iff every stage passes.

Collaborators are oracles. Key generation and address derivation, bcrypt hashing and comparison,
JSON decoding, the network clients, the record mapper and the key-value store are not modelled.
Each appears only as an outcome in the input: an `Option` for a lookup, a `bool` for a write or
registration, the hash bytes for `CreateUser`, and a `matches(hash, password)` function for the
hash comparison.

## Model

| member | source | states |
|---|---|---|
| `SaveIdentity.Handle` | server/app/controllers/save_identity.go:42-158 | The trace always starts by reading the body. A failure answers 500. The answer is the JSON view `{"error": false}` iff every collaborator call succeeded. `FailureResponse` gives the exact response for each failing stage. |
| `SaveIdentity.HandleIsLinear` | server/app/controllers/save_identity.go:42-158 | The stages in the trace are exactly those the reference step machine runs, in order, up to and including the first failing call. The handler succeeds iff no stage failed. |
| `SaveIdentity.AttemptedIsFirstFailure` | server/app/controllers/save_identity.go:42-158 | The reference step machine runs every stage before the first failure and then the failing stage, and stops there. If all stages pass, it runs all of them. The last stage it runs passes iff all stages pass. |
| `SaveIdentity.TraceFollowsStageOrder` | server/app/controllers/save_identity.go:42-158 | Each call in the trace belongs to the stage at its position. The trace never repeats a stage or goes back to an earlier one. |
| `SaveIdentity.TraceLength` | server/app/controllers/save_identity.go:42-158 | The trace has exactly as many calls as the reference step machine attempts on the same outcomes: every stage through the first failing one, or all ten. |
| `SaveIdentity.FailureResponse` | server/app/controllers/save_identity.go:42-158 | A failing run answers with the response of the stage where it stopped. A failed server lookup answers HTTPError 500 "Couldn't get server for id.", and a failed tracker lookup answers HTTPError 500 "Couldn't get tracker for id.". Every other failure answers framework.Error500. |
| `SaveIdentity.DecodeErrorStopsFirst` | server/app/controllers/save_identity.go:44-50 | A decoding error other than io.EOF answers Error500 before any identity is created. |
| `SaveIdentity.EmptyBodyIsZeroProfile` | server/app/controllers/save_identity.go:44-50 | An empty body (io.EOF) is handled exactly like a body that decodes to the zero-valued Profile. |
| `SaveIdentity.ServerLookupFailure` | server/app/controllers/save_identity.go:63-71 | A failed server lookup answers 500 with "Couldn't get server for id.". Nothing is registered or persisted, and the tracker is never looked up. |
| `SaveIdentity.ServerRegistrationAttributes` | server/app/controllers/save_identity.go:73-80 | The server registration uses the fresh identity and the looked-up server's key. Its attribute map has the single key "name", holding first name, a space and last name. |
| `SaveIdentity.ServerRegistrationFailure` | server/app/controllers/save_identity.go:78-84 | A failed server registration is the last call. The tracker lookup, the alias registration and all persistence are skipped. |
| `SaveIdentity.TrackerFailureKeepsServerRegistration` | server/app/controllers/save_identity.go:90-109 | A failed tracker lookup or alias registration answers 500 and persists nothing. The completed server registration stays in the trace with no compensating call. |
| `SaveIdentity.CallArguments` | server/app/controllers/save_identity.go:64-115 | The server lookup uses the request's `server` field and the tracker lookup uses its `tracker` field. The record encoder is given the fresh identity and an empty string. |
| `SaveIdentity.AliasRegisteredByNewIdentity` | server/app/controllers/save_identity.go:99-104 | The alias is registered with the fresh identity as both origin and subject, on the looked-up tracker's URL alone, under the requested alias. |
| `SaveIdentity.PersistenceOrdering` | server/app/controllers/save_identity.go:106-144 | The identity row is inserted only after a successful alias registration and encoding. The alias row is inserted right after a successful insert of the identity row it references. |
| `SaveIdentity.IdentityRowContents` | server/app/controllers/save_identity.go:115-128 | Any identity row the handler tries to insert, whether or not the insert succeeds, carries the request's nickname, the server's URL, encryption key and fingerprint, and the encoder's key data. |
| `SaveIdentity.AliasRowContents` | server/app/controllers/save_identity.go:134-140 | An alias row is inserted only after its identity row was inserted successfully. It references that identity row, with the tracker URL as location and the requested alias as username. |
| `SaveIdentity.CurrentIdentitySetLast` | server/app/controllers/save_identity.go:146-157 | `current_identity` is written last, and only after both inserts succeeded. It is set to the new identity's address. |
| `Decimal.Itoa` | app/controllers/app.go:38 | The session value is a '-' sign exactly for negative ids, followed by a non-empty run of decimal digits. The digits have no leading zero, and zero is never written as "-0". |
| `Decimal.NatToString` | app/controllers/app.go:38 | The decimal rendering of a natural number is a non-empty digit string with no leading zero. |
| `Decimal.ItoaRoundTrip` | app/controllers/app.go:38 | Reading back the string written for a user id yields that id, negative ids included. |
| `Decimal.ItoaInjective` | app/controllers/app.go:38 | Distinct user ids are written as distinct session values. |
| `Users.String` | app/models/user.go:24-26 | The rendering is "User(", then the username, then ")". |
| `Users.StringIdentifiesUsername` | app/models/user.go:24-26 | Two users render the same iff their usernames agree. |
| `Users.CheckField` | app/models/user.go:28-38 | A field check reports nothing iff the value is non-empty and within the maximum. An empty value reports only Required, and a too-long value reports only MaxSize, because the first failing validator ends the check. |
| `Users.Validate` | app/models/user.go:28-38 | No violation is reported iff the username is non-empty with at most 20 elements and the name is non-empty with at most 100. Each violation is reported exactly when its condition fails. |
| `Users.Select` | app/models/user.go:46-50 | The query returns only table rows carrying the username. Each such row comes back exactly as many times as it occurs in the table. |
| `Users.Loaded` | app/models/user.go:14-21 | A loaded row keeps its id, username, name and hash. Its `db:"-"` fields are Go's zero values: an empty password and a non-transient flag. |
| `Users.SingleMatch` | app/models/user.go:55-63 | When the query returns a single row, that row is in the table, and every table row with the username is that row. |
| `Users.AuthenticateUser` | app/models/user.go:40-64 | A failed query panics and nothing else does. Authentication succeeds iff exactly one row carries the username and its hash matches the password. It then returns that row as loaded: the password is empty and the user is not transient. Every table row with that username loads to the returned user. |
| `Users.AmbiguousUsernameFails` | app/models/user.go:55-57 | Zero or several matching rows give the authentication error, whatever the password. |
| `Users.CreateUser` | app/models/user.go:66-76 | The new user has the given username, password, name and hash, and is transient. |
| `Users.Save` | app/models/user.go:78-89 | A transient user is inserted and stops being transient iff the insert succeeds. Any other user is updated and keeps its flag. No other field changes, and the write's failure is reported. |
| `Users.SaveInsertsOnce` | app/models/user.go:78-89 | Over any sequence of saves, at most one insert succeeds, and a stored user is only ever updated. The user stays transient exactly until an insert succeeds, and no other field changes. |
| `App.Logout` | app/controllers/app.go:19-22 | Logout removes the "user" entry, keeps every other session entry unchanged, and redirects to Index. |
| `App.ProcessLogin` | app/controllers/app.go:30-40 | A failed query panics. An authentication error leaves the session unchanged and redirects to Login. On success, session["user"] is `Itoa` of the user's id, so it reads back as that id, every other entry is unchanged, and the user is redirected to Index. |
| `App.RegistrationErrors` | app/controllers/app.go:55-61 | No message is reported iff the name has 1 to 100 elements, the username has 1 to 20, both passwords are non-empty, and they are equal. Each of the seven messages is reported exactly when its own check fails. |
| `App.ProcessRegistration` | app/controllers/app.go:48-75 | Invalid input writes nothing and redirects back to the ProcessRegistration action. Valid input issues exactly one write, the insert of the newly created user, and redirects to Index. Its validation messages are exactly the failed checks, and none on acceptance. |
| `App.RegistrationIgnoresSaveError` | app/controllers/app.go:69-74 | The reply to a registration is the same whether the save succeeds or fails. |
| `App.AcceptedRegistrationValidates` | app/controllers/app.go:55-61 | A user created from an accepted registration passes `User.Validate`. |

## Left out

- Users.Select: the contract states which rows come back and how many times, but not their order. AuthenticateUser depends only on the count and on the single row.
- Key generation and address derivation (`identity.CreateIdentity`) are foreign cryptography. An identity is opaque key material plus its address.
- bcrypt hashing and comparison are foreign cryptography. `CreateUser` receives the hash, and `AuthenticateUser` receives a comparison oracle. The error from `GenerateFromPassword` is ignored in the source, so it is not modelled.
- JSON decoding (`DecodeJSONBody`) is reduced to its three outcomes: a decoded profile, io.EOF, or any other error.
- The wire behaviour of the dap client, the router and the Packager lookups is network I/O. Each is a success/failure or `Option` oracle.
- The record mapper (`gdb` tables, `Insert(...).Exec`, `gdb.ForeignKey`) and SQL text are not modelled. An insert is a success flag. The foreign key is the referenced row itself.
- `models.CreateIdentityFromDispatch` is an oracle returning the encoded row. Its derived fields are the opaque `keyData`.
- SaveIdentity.ServerRegistrationAttributes: the value is a `string`, not the `[]byte` conversion of it, because UTF-8 encoding is not modelled.
- SaveIdentity.Handle: `framework.Error500` is its own response constructor. Its message is defined in the framework package, which is not part of this model.
- Users.Save: gorp's insert also assigns the auto-generated `UserId`. That mapping is database behaviour and is not modelled, so the saved user keeps its id.
- Users.CheckField: revel's `Required` and `MaxSize` are taken as "non-empty" and "at most max elements". Whether revel trims whitespace, or counts bytes or runes, is library behaviour not modelled here. App.RegistrationErrors makes the same assumption.
- Flash messages, `Validation.Keep`, `FlashParams`, rendering (`Index`, `Login`, `Register`) and `fmt.Println` logging are not modelled. Redirect targets are reduced to a tag.
- Concurrency is not modelled. That includes the last-writer-wins race on `current_identity` between concurrent requests.

=== FILE: app.dfy ===
/**
 * The login, logout and registration actions of the App controller
 * (app/controllers/app.go). A session is a string map; an action answers
 * with a redirect and the session it leaves behind. Flash messages and
 * rendering are not modelled.
 */
module App {
  import opened Wrappers
  import Decimal
  import Users

  type Session = map<string, string>

  /** The key under which a logged-in user's id is kept. */
  const UserKey := "user"

  /** Redirect targets: App.Index, App.Login, and back to the registration action. */
  datatype Route = Index | Login | ProcessRegistrationAction

  /** An action either redirects, leaving a session behind, or panics. */
  datatype Reply = Redirect(to: Route, session: Session) | Panic

  /** Logout: forget the logged-in user, keep every other session entry. */
  function Logout(session: Session): (r: Reply)
    ensures r.Redirect? && r.to == Index
    ensures UserKey !in r.session
    ensures forall k :: k != UserKey ==> (k in r.session <==> k in session)
    ensures forall k :: k in r.session ==> r.session[k] == session[k]
  {
    Redirect(Index, session - {UserKey})
  }

  /** ProcessLogin: on success the session records the user's id in decimal;
      on an authentication error the session is left alone and the user is
      sent back to Login; a failed query panics. */
  function ProcessLogin(session: Session, username: string, password: string,
                        store: Users.Store, matches: (Users.Bytes, string) -> bool): (r: Reply)
    ensures r.Panic? <==> store.Unavailable?
    ensures Users.AuthenticateUser(username, password, store, matches).AuthenticationError? ==>
      r == Redirect(Login, session)
    ensures Users.AuthenticateUser(username, password, store, matches).Authenticated? ==>
      && r.Redirect? && r.to == Index
      && UserKey in r.session
      && r.session[UserKey] == Decimal.Itoa(Users.AuthenticateUser(username, password, store, matches).user.userId)
      && Decimal.ParseDecimal(r.session[UserKey])
         == Some(Users.AuthenticateUser(username, password, store, matches).user.userId)
      && (forall k :: k != UserKey ==> (k in r.session <==> k in session))
      && (forall k :: k != UserKey && k in session ==> r.session[k] == session[k])
  {
    match Users.AuthenticateUser(username, password, store, matches)
    case QueryPanic => Panic
    case AuthenticationError => Redirect(Login, session)
    case Authenticated(user) =>
      Decimal.ItoaRoundTrip(user.userId);
      Redirect(Index, session[UserKey := Decimal.Itoa(user.userId)])
  }

  // ---------------------------------------------------------------------
  // Registration
  // ---------------------------------------------------------------------

  const NameRequired := "Full Name is required."
  const NameTooLong := "Full name cannot be longer than 100 characters."
  const UsernameRequired := "Username is required."
  const UsernameTooLong := "Username cannot be longer than 20 characters"
  const PasswordRequired := "Password is required."
  const ConfirmationRequired := "Confirmation password is required."
  const PasswordsDiffer := "Passwords must match."

  /** What the registration form must satisfy. A string is taken to be
      present when it is non-empty and its size is its number of elements. */
  predicate RegistrationAccepted(name: string, username: string, password: string, confirm: string) {
    && 0 < |name| <= Users.NameMaxSize
    && 0 < |username| <= Users.UsernameMaxSize
    && |password| > 0 && |confirm| > 0
    && password == confirm
  }

  /** The message of a check, listed when the check fails. */
  function Failing(ok: bool, message: string): seq<string> {
    if ok then [] else [message]
  }

  /** The seven registration checks, every one applied, in source order; the
      result lists the messages of those that failed. */
  function RegistrationErrors(name: string, username: string, password: string, confirm: string): (errs: seq<string>)
    ensures errs == [] <==> RegistrationAccepted(name, username, password, confirm)
    ensures PasswordsDiffer in errs <==> password != confirm
    ensures NameRequired in errs <==> |name| == 0
    ensures NameTooLong in errs <==> |name| > Users.NameMaxSize
    ensures UsernameRequired in errs <==> |username| == 0
    ensures UsernameTooLong in errs <==> |username| > Users.UsernameMaxSize
    ensures PasswordRequired in errs <==> |password| == 0
    ensures ConfirmationRequired in errs <==> |confirm| == 0
  {
    Failing(|name| > 0, NameRequired)
    + Failing(|name| <= Users.NameMaxSize, NameTooLong)
    + Failing(|username| > 0, UsernameRequired)
    + Failing(|username| <= Users.UsernameMaxSize, UsernameTooLong)
    + Failing(|password| > 0, PasswordRequired)
    + Failing(|confirm| > 0, ConfirmationRequired)
    + Failing(password == confirm, PasswordsDiffer)
  }

  /** The redirect, the writes issued and the validation messages kept. */
  datatype RegistrationReply = RegistrationReply(to: Route, writes: seq<Users.WriteOp>, errors: seq<string>)

  /** ProcessRegistration: on valid input one new user is created and saved
      (the outcome `saveOk` of its insert is ignored) and the user goes to
      Index; otherwise nothing is written and the user is redirected back to
      the ProcessRegistration action. */
  function ProcessRegistration(name: string, username: string, password: string, confirm: string,
                               hashed: Users.Bytes, saveOk: bool): (r: RegistrationReply)
    ensures r.to == Index <==> RegistrationAccepted(name, username, password, confirm)
    ensures r.to == ProcessRegistrationAction <==> !RegistrationAccepted(name, username, password, confirm)
    ensures RegistrationAccepted(name, username, password, confirm) ==>
      r.writes == [Users.Insert(Users.CreateUser(username, password, name, hashed))]
    ensures !RegistrationAccepted(name, username, password, confirm) ==> r.writes == [] && r.errors != []
    ensures r.errors == (if RegistrationAccepted(name, username, password, confirm) then []
                         else RegistrationErrors(name, username, password, confirm))
  {
    var errs := RegistrationErrors(name, username, password, confirm);
    if errs != [] then RegistrationReply(ProcessRegistrationAction, [], errs)
    else
      var u := Users.CreateUser(username, password, name, hashed);
      var saved := Users.Save(u, saveOk);
      RegistrationReply(Index, [saved.op], [])
  }

  /** The answer to a registration does not depend on whether the save succeeded. */
  lemma RegistrationIgnoresSaveError(name: string, username: string, password: string, confirm: string,
                                     hashed: Users.Bytes)
    ensures ProcessRegistration(name, username, password, confirm, hashed, true)
         == ProcessRegistration(name, username, password, confirm, hashed, false)
  {
  }

  /** A user created from an accepted registration passes User.Validate. */
  lemma AcceptedRegistrationValidates(name: string, username: string, password: string, confirm: string,
                                      hashed: Users.Bytes)
    requires RegistrationAccepted(name, username, password, confirm)
    ensures Users.Validate(Users.CreateUser(username, password, name, hashed)) == []
  {
  }
}

=== FILE: decimal.dfy ===
/**
 * Decimal rendering of integers, as Go's strconv.Itoa produces it, together
 * with an independent reader for such strings. The round trip between the two
 * is what makes a session value written at login identify the user again.
 */
module Decimal {
  import opened Wrappers

  predicate IsDigit(c: char) {
    '0' <= c <= '9'
  }

  /** A non-empty string of decimal digits. */
  predicate IsDigits(s: string) {
    |s| > 0 && forall i :: 0 <= i < |s| ==> IsDigit(s[i])
  }

  function DigitChar(d: nat): (c: char)
    requires d < 10
    ensures IsDigit(c) && DigitValue(c) == d
  {
    (('0' as int) + d) as char
  }

  function DigitValue(c: char): (d: nat)
    requires IsDigit(c)
    ensures d < 10
  {
    (c as int) - ('0' as int)
  }

  /** Digits of `n`, most significant first. */
  function NatToString(n: nat): (s: string)
    ensures IsDigits(s)
    ensures s[0] == '0' ==> n == 0   // no leading zero
    decreases n
  {
    if n < 10 then [DigitChar(n)] else NatToString(n / 10) + [DigitChar(n % 10)]
  }

  /** strconv.Itoa: a leading '-' for negative numbers, then the digits of the magnitude. */
  function Itoa(n: int): (s: string)
    ensures n < 0 <==> (|s| > 0 && s[0] == '-')
    ensures IsDigits(if n < 0 then s[1..] else s)
    ensures var d := if n < 0 then s[1..] else s; d[0] == '0' ==> n == 0   // no leading zero, no "-0"
  {
    if n < 0 then "-" + NatToString(-n) else NatToString(n)
  }

  /** Value of a digit string, read most significant digit first. */
  function StringToNat(s: string): nat
    requires forall i :: 0 <= i < |s| ==> IsDigit(s[i])
    decreases |s|
  {
    if |s| == 0 then 0 else StringToNat(s[..|s| - 1]) * 10 + DigitValue(s[|s| - 1])
  }

  /** Reference reader: an optional '-' followed by at least one digit. */
  function ParseDecimal(s: string): Option<int> {
    if |s| > 0 && s[0] == '-' then
      if IsDigits(s[1..]) then Some(0 - StringToNat(s[1..]) as int) else None
    else if IsDigits(s) then Some(StringToNat(s))
    else None
  }

  lemma {:induction false} NatRoundTrip(n: nat)
    ensures StringToNat(NatToString(n)) == n
    decreases n
  {
    var s := NatToString(n);
    if n >= 10 {
      NatRoundTrip(n / 10);
      assert s[..|s| - 1] == NatToString(n / 10);
    }
  }

  /** Reading back what Itoa wrote yields the original number. */
  lemma ItoaRoundTrip(n: int)
    ensures ParseDecimal(Itoa(n)) == Some(n)
  {
    var s := Itoa(n);
    if n < 0 {
      assert s[1..] == NatToString(-n);
      NatRoundTrip(-n);
    } else {
      NatRoundTrip(n);
    }
  }

  /** Distinct numbers are rendered as distinct strings. */
  lemma ItoaInjective(a: int, b: int)
    ensures Itoa(a) == Itoa(b) ==> a == b
  {
    ItoaRoundTrip(a);
    ItoaRoundTrip(b);
  }
}

=== FILE: save_identity.dfy ===
/**
 * The identity-provisioning handler of the Melange server
 * (server/app/controllers/save_identity.go). The handler is a strictly
 * linear sequence of calls into collaborators; each either succeeds or ends
 * the request with a 500 response at once, with no retry and no rollback.
 *
 * Every collaborator (JSON decoding, key generation, the Packager's server
 * and tracker lookups, the dap and router registrations, the record encoder,
 * the two table inserts and the key-value store) is an oracle whose outcome
 * is part of the input `Env`. `Handle` is then a pure function returning the
 * response together with the trace of calls it made, in order.
 */
module SaveIdentity {
  import opened Wrappers

  /** The JSON request body: fields `first`, `last`, `about`, `password`,
      `server`, `tracker`, `alias` and `nickname`. */
  datatype Profile = Profile(
    firstName: string,
    lastName: string,
    about: string,
    password: string,
    server: string,
    tracker: string,
    alias: string,
    nickname: string)

  /** Go's zero value of Profile, which an empty body leaves in place. */
  const EmptyProfile := Profile("", "", "", "", "", "", "", "")

  /** The three outcomes of decoding the body: a profile, io.EOF (no body), or any other error. */
  datatype Body = Decoded(profile: Profile) | EmptyBody | Malformed

  /** A freshly generated identity: opaque key material and its derived address. */
  datatype Identity = Identity(keys: nat, address: string)

  /** What the Packager knows of a server. */
  datatype Server = Server(key: string, url: string, encryptionKey: string, fingerprint: string)

  /** What the Packager knows of a tracker. */
  datatype Tracker = Tracker(url: string)

  /** The identity table row. `keyData` stands for every field the record
      encoder derives from the key material; the handler sets the others. */
  datatype IdentityRow = IdentityRow(
    keyData: string,
    nickname: string,
    server: string,
    serverKey: string,
    serverFingerprint: string)

  /** The alias table row; `identity` is the foreign reference to the identity row. */
  datatype AliasRow = AliasRow(identity: IdentityRow, location: string, username: string)

  /** The outcome of every collaborator call, in the order the handler makes them. */
  datatype Env = Env(
    body: Body,
    created: Option<Identity>,
    server: Option<Server>,
    serverRegistered: bool,
    tracker: Option<Tracker>,
    aliasRegistered: bool,
    encoded: Option<IdentityRow>,
    identityInserted: bool,
    aliasInserted: bool,
    currentSet: bool)

  /** One call the handler made, with the arguments it passed. `extra` is the
      second argument of models.CreateIdentityFromDispatch, whose meaning lies
      outside this model; the handler always passes the empty string. */
  datatype Effect =
    | ReadBody
    | CreateIdentity
    | LookupServer(ref: string)
    | RegisterOnServer(client: Identity, serverKey: string, attributes: map<string, string>)
    | LookupTracker(ref: string)
    | RegisterAlias(origin: Identity, trackers: seq<string>, id: Identity, alias: string)
    | EncodeIdentity(id: Identity, extra: string)
    | InsertIdentity(identityRow: IdentityRow)
    | InsertAlias(aliasRow: AliasRow)
    | SetStore(key: string, value: string)

  /** framework.Error500, an HTTPError with an explicit code and message, or a JSON view. */
  datatype Response = Error500 | HttpError(code: int, message: string) | Json(content: map<string, bool>)

  datatype Outcome = Outcome(response: Response, trace: seq<Effect>)

  const ServerLookupMessage := "Couldn't get server for id."
  const TrackerLookupMessage := "Couldn't get tracker for id."
  const CurrentIdentityKey := "current_identity"

  /** The profile the handler works with: the decoded one, or the zero value on io.EOF. */
  function RequestProfile(body: Body): Profile
    requires !body.Malformed?
  {
    if body.Decoded? then body.profile else EmptyProfile
  }

  /** The attribute map sent with the server registration. */
  function NameAttributes(p: Profile): map<string, string> {
    map["name" := p.firstName + " " + p.lastName]
  }

  /** The HTTP status a response carries. */
  function StatusCode(r: Response): int {
    match r
    case Error500 => 500
    case HttpError(code, _) => code
    case Json(_) => 200
  }

  /** SaveIdentity.Handle over the collaborators' outcomes. */
  function Handle(env: Env): (out: Outcome)
    ensures |out.trace| >= 1 && out.trace[0] == ReadBody
    ensures out.response.Json? ==> out.response.content == map["error" := false]
    ensures !out.response.Json? ==> StatusCode(out.response) == 500
    ensures out.response.Json? <==> AllSucceed(env)
  {
    if env.body.Malformed? then Outcome(Error500, [ReadBody]) else
    var p := RequestProfile(env.body);
    var t0 := [ReadBody, CreateIdentity];
    if env.created.None? then Outcome(Error500, t0) else
    var id := env.created.value;
    var t1 := t0 + [LookupServer(p.server)];
    if env.server.None? then Outcome(HttpError(500, ServerLookupMessage), t1) else
    var server := env.server.value;
    var t2 := t1 + [RegisterOnServer(id, server.key, NameAttributes(p))];
    if !env.serverRegistered then Outcome(Error500, t2) else
    var t3 := t2 + [LookupTracker(p.tracker)];
    if env.tracker.None? then Outcome(HttpError(500, TrackerLookupMessage), t3) else
    var tracker := env.tracker.value;
    var t4 := t3 + [RegisterAlias(id, [tracker.url], id, p.alias)];
    if !env.aliasRegistered then Outcome(Error500, t4) else
    var t5 := t4 + [EncodeIdentity(id, "")];
    if env.encoded.None? then Outcome(Error500, t5) else
    var row := env.encoded.value.(
      nickname := p.nickname,
      server := server.url,
      serverKey := server.encryptionKey,
      serverFingerprint := server.fingerprint);
    var t6 := t5 + [InsertIdentity(row)];
    if !env.identityInserted then Outcome(Error500, t6) else
    var t7 := t6 + [InsertAlias(AliasRow(row, tracker.url, p.alias))];
    if !env.aliasInserted then Outcome(Error500, t7) else
    var t8 := t7 + [SetStore(CurrentIdentityKey, id.address)];
    if !env.currentSet then Outcome(Error500, t8) else
    Outcome(Json(map["error" := false]), t8)
  }

  // ---------------------------------------------------------------------
  // The handler as a linear step machine
  // ---------------------------------------------------------------------

  /** The stages of the handler, one per collaborator call. */
  datatype Step =
    | Decode | Create | GetServer | RegisterServer | GetTracker
    | RegisterTracker | Encode | PersistIdentity | PersistAlias | SetCurrent

  const AllSteps: seq<Step> :=
    [Decode, Create, GetServer, RegisterServer, GetTracker,
     RegisterTracker, Encode, PersistIdentity, PersistAlias, SetCurrent]

  function StepOf(e: Effect): Step {
    match e
    case ReadBody => Decode
    case CreateIdentity => Create
    case LookupServer(_) => GetServer
    case RegisterOnServer(_, _, _) => RegisterServer
    case LookupTracker(_) => GetTracker
    case RegisterAlias(_, _, _, _) => RegisterTracker
    case EncodeIdentity(_, _) => Encode
    case InsertIdentity(_) => PersistIdentity
    case InsertAlias(_) => PersistAlias
    case SetStore(_, _) => SetCurrent
  }

  /** The stage of each call in a trace. */
  function Steps(trace: seq<Effect>): seq<Step> {
    seq(|trace|, i requires 0 <= i < |trace| => StepOf(trace[i]))
  }

  /** Whether each stage's collaborator succeeded, in stage order. */
  function Passes(env: Env): seq<bool> {
    [!env.body.Malformed?, env.created.Some?, env.server.Some?, env.serverRegistered,
     env.tracker.Some?, env.aliasRegistered, env.encoded.Some?, env.identityInserted,
     env.aliasInserted, env.currentSet]
  }

  /** Every collaborator succeeded. */
  predicate AllSucceed(env: Env) {
    && !env.body.Malformed? && env.created.Some? && env.server.Some? && env.serverRegistered
    && env.tracker.Some? && env.aliasRegistered && env.encoded.Some? && env.identityInserted
    && env.aliasInserted && env.currentSet
  }

  /** Every stage in `oks` succeeded. */
  predicate AllPass(oks: seq<bool>) {
    forall i :: 0 <= i < |oks| ==> oks[i]
  }

  /** Reference step machine: how many stages run when stage i's outcome is oks[i]
      and the first failing stage ends the run. */
  function Attempted(oks: seq<bool>): (n: nat)
    ensures n <= |oks|
    ensures |oks| > 0 ==> n >= 1
    decreases |oks|
  {
    if |oks| == 0 then 0
    else if oks[0] then 1 + Attempted(oks[1..])
    else 1
  }

  /** Attempted runs every stage before the first failure, then the failing
      stage itself, and no further. If all stages pass, it runs all of them;
      the last stage it runs passes exactly when all stages pass. */
  lemma {:induction false} AttemptedIsFirstFailure(oks: seq<bool>)
    ensures forall i :: 0 <= i < Attempted(oks) - 1 ==> oks[i]
    ensures !AllPass(oks) ==> !oks[Attempted(oks) - 1]
    ensures AllPass(oks) ==> Attempted(oks) == |oks|
    ensures |oks| > 0 ==> (oks[Attempted(oks) - 1] <==> AllPass(oks))
    decreases |oks|
  {
    if |oks| > 0 && oks[0] {
      var rest := oks[1..];
      AttemptedIsFirstFailure(rest);
      forall i | 1 <= i < Attempted(oks) - 1
        ensures oks[i]
      {
        assert oks[i] == rest[i - 1];
      }
      if AllPass(oks) {
        assert forall i :: 0 <= i < |rest| ==> rest[i] == oks[i + 1];
      } else {
        var i :| 0 <= i < |oks| && !oks[i];
        assert rest[i - 1] == oks[i];
      }
    }
  }

  /** A run whose first failure is stage k attempts exactly k + 1 stages. */
  lemma AttemptedAt(oks: seq<bool>, k: nat)
    requires k < |oks| && !oks[k]
    requires forall i :: 0 <= i < k ==> oks[i]
    ensures Attempted(oks) == k + 1
  {
    AttemptedIsFirstFailure(oks);
    var n := Attempted(oks);
    assert !oks[n - 1];
  }

  /** Passes lists every collaborator outcome: all pass iff all succeed. */
  lemma PassesCoverEnv(env: Env)
    ensures AllPass(Passes(env)) <==> AllSucceed(env)
  {
    var oks := Passes(env);
    if AllPass(oks) {
      assert oks[0] && oks[1] && oks[2] && oks[3] && oks[4];
      assert oks[5] && oks[6] && oks[7] && oks[8] && oks[9];
    }
  }

  /** The calls of a trace follow the stage order, one stage per position. */
  predicate InStageOrder(trace: seq<Effect>) {
    |trace| <= |AllSteps| && forall i :: 0 <= i < |trace| ==> StepOf(trace[i]) == AllSteps[i]
  }

  /** Stage order for runs that stop before the tracker registration. */
  lemma EarlyTraceInStageOrder(env: Env)
    requires env.body.Malformed? || env.created.None? || env.server.None?
          || !env.serverRegistered || env.tracker.None?
    ensures InStageOrder(Handle(env).trace)
  {
    if env.body.Malformed? {
    } else if env.created.None? {
    } else if env.server.None? {
    } else if !env.serverRegistered {
    } else {
    }
  }

  /** The call at each position of a run that reaches the alias registration,
      and what reaching each later position says about the outcomes. */
  lemma LatePositions(env: Env)
    requires !env.body.Malformed? && env.created.Some? && env.server.Some?
    requires env.serverRegistered && env.tracker.Some?
    ensures var t := Handle(env).trace;
      && 6 <= |t| <= 10
      && t[0].ReadBody? && t[1].CreateIdentity? && t[2].LookupServer?
      && t[3].RegisterOnServer? && t[4].LookupTracker? && t[5].RegisterAlias?
      && (|t| >= 7 ==> env.aliasRegistered && t[6].EncodeIdentity?)
      && (|t| >= 8 ==> env.encoded.Some? && t[7].InsertIdentity?)
      && (|t| >= 9 ==> env.identityInserted && t[8].InsertAlias? && t[8].aliasRow.identity == t[7].identityRow)
      && (|t| >= 10 ==> t[9].SetStore?)
  {
  }

  /** Stage order for runs that reach the tracker registration. */
  lemma LateTraceInStageOrder(env: Env)
    requires !env.body.Malformed? && env.created.Some? && env.server.Some?
    requires env.serverRegistered && env.tracker.Some?
    ensures InStageOrder(Handle(env).trace)
  {
    var t := Handle(env).trace;
    LatePositions(env);
    forall i | 0 <= i < |t|
      ensures StepOf(t[i]) == AllSteps[i]
    {
      if i < 5 {
      } else if i < 8 {
      }
    }
  }

  /** Each call in the trace belongs to the stage at its position. */
  lemma TraceFollowsStageOrder(env: Env)
    ensures |Handle(env).trace| <= |AllSteps|
    ensures forall i :: 0 <= i < |Handle(env).trace| ==> StepOf(Handle(env).trace[i]) == AllSteps[i]
  {
    if env.body.Malformed? || env.created.None? || env.server.None?
       || !env.serverRegistered || env.tracker.None? {
      EarlyTraceInStageOrder(env);
    } else {
      LateTraceInStageOrder(env);
    }
  }

  /** The number of stages the handler runs, read off the collaborators' outcomes. */
  function StagesRun(env: Env): (n: nat)
    ensures 1 <= n <= |AllSteps|
  {
    if env.body.Malformed? then 1
    else if env.created.None? then 2
    else if env.server.None? then 3
    else if !env.serverRegistered then 4
    else if env.tracker.None? then 5
    else if !env.aliasRegistered then 6
    else if env.encoded.None? then 7
    else if !env.identityInserted then 8
    else if !env.aliasInserted then 9
    else 10
  }

  /** The trace holds one call per stage counted by StagesRun. */
  lemma TraceRunsStages(env: Env)
    ensures |Handle(env).trace| == StagesRun(env)
  {
    if env.body.Malformed? {
    } else if env.created.None? {
    } else if env.server.None? {
    } else if !env.serverRegistered {
    } else if env.tracker.None? {
    } else if !env.aliasRegistered {
    } else if env.encoded.None? {
    } else if !env.identityInserted {
    } else if !env.aliasInserted {
    } else {
    }
  }

  /** The reference step machine runs the same number of stages. */
  lemma AttemptedIsStagesRun(env: Env)
    ensures Attempted(Passes(env)) == StagesRun(env)
  {
    var oks := Passes(env);
    if AllSucceed(env) {
      PassesCoverEnv(env);
      AttemptedIsFirstFailure(oks);
    } else {
      AttemptedAt(oks, StagesRun(env) - 1);
    }
  }

  /** The trace holds one call per stage the reference step machine attempts:
      every stage through the first failing one, or all of them. */
  lemma TraceLength(env: Env)
    ensures |Handle(env).trace| == Attempted(Passes(env))
  {
    TraceRunsStages(env);
    AttemptedIsStagesRun(env);
  }

  /** The handler is the linear step machine: its trace runs the stages in order,
      through the first failing one, and it answers success iff none failed. */
  lemma HandleIsLinear(env: Env)
    ensures Steps(Handle(env).trace) == AllSteps[..Attempted(Passes(env))]
    ensures Handle(env).response.Json? <==> AllPass(Passes(env))
  {
    PassesCoverEnv(env);
    TraceFollowsStageOrder(env);
    TraceLength(env);
  }

  /** A failing run answers with the response of the stage that failed: the
      two lookups answer a 500 HTTPError with their own message, and every
      other stage answers framework.Error500. */
  lemma FailureResponse(env: Env)
    requires !AllSucceed(env)
    ensures var stop := AllSteps[Attempted(Passes(env)) - 1];
      Handle(env).response ==
        if stop == GetServer then HttpError(500, ServerLookupMessage)
        else if stop == GetTracker then HttpError(500, TrackerLookupMessage)
        else Error500
  {
    AttemptedIsStagesRun(env);
  }

  // ---------------------------------------------------------------------
  // Properties of single runs
  // ---------------------------------------------------------------------

  /** Calls that register something outside this process. */
  predicate IsRegistration(e: Effect) {
    e.RegisterOnServer? || e.RegisterAlias?
  }

  /** Calls that write the local store. */
  predicate IsPersistence(e: Effect) {
    e.InsertIdentity? || e.InsertAlias? || e.SetStore?
  }

  /** A malformed body ends the request before an identity is created. */
  lemma DecodeErrorStopsFirst(env: Env)
    requires env.body.Malformed?
    ensures Handle(env).response == Error500
    ensures Handle(env).trace == [ReadBody]
  {
  }

  /** An empty body (io.EOF) is handled exactly as a body holding the zero profile. */
  lemma EmptyBodyIsZeroProfile(env: Env)
    requires env.body.EmptyBody?
    ensures Handle(env) == Handle(env.(body := Decoded(EmptyProfile)))
  {
  }

  /** A failed server lookup answers "Couldn't get server for id." and nothing is
      registered or persisted. */
  lemma ServerLookupFailure(env: Env)
    requires !env.body.Malformed? && env.created.Some? && env.server.None?
    ensures Handle(env).response == HttpError(500, ServerLookupMessage)
    ensures forall e <- Handle(env).trace :: !IsRegistration(e) && !IsPersistence(e)
    ensures forall e <- Handle(env).trace :: !e.LookupTracker?
  {
  }

  /** The server registration carries exactly one attribute, "name", holding
      first name, a space and last name, and is made with the fresh identity. */
  lemma ServerRegistrationAttributes(env: Env, k: Identity, serverKey: string, attributes: map<string, string>)
    requires RegisterOnServer(k, serverKey, attributes) in Handle(env).trace
    ensures !env.body.Malformed? && env.created == Some(k) && env.server.Some?
    ensures serverKey == env.server.value.key
    ensures attributes.Keys == {"name"}
    ensures attributes["name"] ==
      RequestProfile(env.body).firstName + " " + RequestProfile(env.body).lastName
  {
  }

  /** A failed server registration skips the tracker and all persistence. */
  lemma ServerRegistrationFailure(env: Env)
    requires !env.body.Malformed? && env.created.Some? && env.server.Some?
    requires !env.serverRegistered
    ensures Handle(env).response == Error500
    ensures Steps(Handle(env).trace)[|Handle(env).trace| - 1] == RegisterServer
    ensures forall e <- Handle(env).trace :: !e.LookupTracker? && !e.RegisterAlias? && !IsPersistence(e)
  {
  }

  /** A tracker failure after a successful server registration answers 500 and
      persists nothing, while the server registration stays in the trace: there
      is no compensating call. */
  lemma TrackerFailureKeepsServerRegistration(env: Env)
    requires !env.body.Malformed? && env.created.Some? && env.server.Some? && env.serverRegistered
    requires env.tracker.None? || !env.aliasRegistered
    ensures StatusCode(Handle(env).response) == 500
    ensures env.tracker.None? ==> Handle(env).response == HttpError(500, TrackerLookupMessage)
    ensures RegisterOnServer(env.created.value, env.server.value.key,
                             NameAttributes(RequestProfile(env.body))) in Handle(env).trace
    ensures forall e <- Handle(env).trace :: !IsPersistence(e)
  {
    var t := Handle(env).trace;
    assert t[3] == RegisterOnServer(env.created.value, env.server.value.key,
                                    NameAttributes(RequestProfile(env.body)));
  }

  /** The identity row is inserted only after the alias registration and the
      encoding succeeded, and the alias row is inserted immediately after a
      successful insert of the very row it references. */
  lemma PersistenceOrdering(env: Env)
    ensures forall i :: 0 <= i < |Handle(env).trace| && Handle(env).trace[i].InsertIdentity? ==>
      i >= 2 && Handle(env).trace[i - 2].RegisterAlias? && env.aliasRegistered && env.encoded.Some?
    ensures forall j :: 0 <= j < |Handle(env).trace| && Handle(env).trace[j].InsertAlias? ==>
      j >= 1 && env.identityInserted &&
      Handle(env).trace[j - 1] == InsertIdentity(Handle(env).trace[j].aliasRow.identity)
  {
    var t := Handle(env).trace;
    if !env.body.Malformed? && env.created.Some? && env.server.Some? && env.serverRegistered && env.tracker.Some? {
      LatePositions(env);
      forall i | 0 <= i < |t| && t[i].InsertIdentity?
        ensures i == 7
      {
        if i < 6 {
        } else if i != 7 {
        }
      }
      forall j | 0 <= j < |t| && t[j].InsertAlias?
        ensures j == 8
      {
        if j < 6 {
        } else if j != 8 {
        }
      }
    } else {
      assert |t| <= 5;
      forall i | 0 <= i < |t|
        ensures !t[i].InsertIdentity? && !t[i].InsertAlias?
      {
      }
    }
  }

  /** The identity row the handler tries to insert, whatever the insert's
      outcome, carries the request's nickname, the looked-up server's details
      and the encoder's key data. */
  lemma IdentityRowContents(env: Env, row: IdentityRow)
    requires InsertIdentity(row) in Handle(env).trace
    ensures !env.body.Malformed? && env.server.Some? && env.encoded.Some?
    ensures row.nickname == RequestProfile(env.body).nickname
    ensures row.server == env.server.value.url
    ensures row.serverKey == env.server.value.encryptionKey
    ensures row.serverFingerprint == env.server.value.fingerprint
    ensures row.keyData == env.encoded.value.keyData
  {
  }

  /** The alias row the handler tries to insert references the identity row
      just inserted, with the tracker's URL as location and the requested alias. */
  lemma AliasRowContents(env: Env, aliasRow: AliasRow)
    requires InsertAlias(aliasRow) in Handle(env).trace
    ensures !env.body.Malformed? && env.tracker.Some? && env.identityInserted
    ensures InsertIdentity(aliasRow.identity) in Handle(env).trace
    ensures aliasRow.location == env.tracker.value.url
    ensures aliasRow.username == RequestProfile(env.body).alias
  {
  }

  /** The lookups use the request's server and tracker references, and the
      encoder is given the fresh identity and an empty second argument. */
  lemma CallArguments(env: Env, ref: string, k: Identity, x: string)
    ensures LookupServer(ref) in Handle(env).trace ==>
      !env.body.Malformed? && ref == RequestProfile(env.body).server
    ensures LookupTracker(ref) in Handle(env).trace ==>
      !env.body.Malformed? && ref == RequestProfile(env.body).tracker
    ensures EncodeIdentity(k, x) in Handle(env).trace ==> env.created == Some(k) && x == ""
  {
  }

  /** The alias is registered from the fresh identity itself, on the looked-up tracker. */
  lemma AliasRegisteredByNewIdentity(env: Env, origin: Identity, trackers: seq<string>, id: Identity, alias: string)
    requires RegisterAlias(origin, trackers, id, alias) in Handle(env).trace
    ensures env.created == Some(origin) && id == origin
    ensures env.tracker.Some? && trackers == [env.tracker.value.url]
    ensures alias == RequestProfile(env.body).alias
  {
  }

  /** current_identity is written last, only after both inserts succeeded, and
      holds the new identity's address. */
  lemma CurrentIdentitySetLast(env: Env, key: string, value: string)
    requires SetStore(key, value) in Handle(env).trace
    ensures env.identityInserted && env.aliasInserted && env.created.Some?
    ensures key == CurrentIdentityKey && value == env.created.value.address
    ensures Handle(env).trace[|Handle(env).trace| - 1] == SetStore(key, value)
  {
  }
}

=== FILE: users.dfy ===
/**
 * The User model (app/models/user.go): field validation, the authentication
 * decision over the rows a username query returns, construction of a new
 * user, and the Transient flag that decides between insert and update on Save.
 *
 * The database is a table of rows or an unavailable store; bcrypt is an
 * oracle: `matches(hash, password)` answers whether the password fits the
 * stored hash, and CreateUser receives the hash it would have generated.
 */
module Users {

  type Bytes = seq<bv8>

  datatype User = User(
    userId: int,
    username: string,
    password: string,
    name: string,
    hashedPassword: Bytes,
    transient: bool)

  const UsernameMaxSize := 20
  const NameMaxSize := 100

  /** User.String: "User(" followed by the username and ")". */
  function String(u: User): (s: string)
    ensures |s| == |u.username| + 6
    ensures s[..5] == "User(" && s[|s| - 1] == ')'
    ensures s[5..|s| - 1] == u.username
  {
    "User(" + u.username + ")"
  }

  /** Two users render to the same string exactly when their usernames agree. */
  lemma StringIdentifiesUsername(a: User, b: User)
    ensures String(a) == String(b) <==> a.username == b.username
  {
    if String(a) == String(b) {
      assert a.username == String(a)[5..|String(a)| - 1];
    }
  }

  // ---------------------------------------------------------------------
  // Validation
  // ---------------------------------------------------------------------

  /** A failed revel check on a named field. */
  datatype Violation = Required(field: string) | MaxSize(field: string, max: nat)

  /** The checks Required then MaxSize applied in order to one field; like
      revel's Check, the first failing check is the one reported. The length
      of a string is taken to be its number of elements. */
  function CheckField(field: string, value: string, max: nat): (r: seq<Violation>)
    ensures r == [] <==> 0 < |value| <= max
    ensures |value| == 0 ==> r == [Required(field)]
    ensures |value| > max ==> r == [MaxSize(field, max)]
  {
    if |value| == 0 then [Required(field)]
    else if |value| > max then [MaxSize(field, max)]
    else []
  }

  /** The field rules User.Validate enforces. */
  predicate ValidUser(u: User) {
    0 < |u.username| <= UsernameMaxSize && 0 < |u.name| <= NameMaxSize
  }

  /** User.Validate: the violations it records, username first, then name. */
  function Validate(u: User): (errs: seq<Violation>)
    ensures errs == [] <==> ValidUser(u)
    ensures |errs| <= 2
    ensures Required("Username") in errs <==> |u.username| == 0
    ensures MaxSize("Username", UsernameMaxSize) in errs <==> |u.username| > UsernameMaxSize
    ensures Required("Name") in errs <==> |u.name| == 0
    ensures MaxSize("Name", NameMaxSize) in errs <==> |u.name| > NameMaxSize
  {
    CheckField("Username", u.username, UsernameMaxSize) + CheckField("Name", u.name, NameMaxSize)
  }

  // ---------------------------------------------------------------------
  // Authentication
  // ---------------------------------------------------------------------

  /** The dispatch_user table as the query sees it, or a store whose query fails. */
  datatype Store = Unavailable | Table(rows: seq<User>)

  /** The rows `select * from dispatch_user where username = ...` returns, in table order. */
  function Select(rows: seq<User>, username: string): (r: seq<User>)
    ensures |r| <= |rows|
    ensures forall i :: 0 <= i < |r| ==> r[i] in rows && r[i].username == username
    ensures forall u :: u in rows && u.username == username ==> u in r
    ensures forall u :: multiset(r)[u] == (if u.username == username then multiset(rows)[u] else 0)
    decreases |rows|
  {
    if |rows| == 0 then []
    else
      var rest := Select(rows[1..], username);
      assert rows == [rows[0]] + rows[1..];
      if rows[0].username == username then [rows[0]] + rest else rest
  }

  /** A row as the query loads it: Password and Transient are tagged `db:"-"`,
      so they are never read from the table and keep Go's zero values. */
  function Loaded(row: User): (u: User)
    ensures u.password == "" && !u.transient
    ensures u.userId == row.userId && u.username == row.username
    ensures u.name == row.name && u.hashedPassword == row.hashedPassword
  {
    row.(password := "", transient := false)
  }

  /** The three outcomes of AuthenticateUser: the matched user, the
      authentication error, or the panic on a failed query. */
  datatype AuthResult = Authenticated(user: User) | AuthenticationError | QueryPanic

  /** AuthenticateUser: exactly one row must carry the username, and its hash
      must match the password. */
  function AuthenticateUser(username: string, password: string, store: Store,
                            matches: (Bytes, string) -> bool): (r: AuthResult)
    ensures r.QueryPanic? <==> store.Unavailable?
    ensures r.Authenticated? <==>
      store.Table? && |Select(store.rows, username)| == 1 &&
      matches(Select(store.rows, username)[0].hashedPassword, password)
    ensures r.Authenticated? ==>
      && r.user.username == username
      && !r.user.transient && r.user.password == ""
      && r.user == Loaded(Select(store.rows, username)[0])
      && Select(store.rows, username)[0] in store.rows
      && (forall u :: u in store.rows && u.username == username ==> Loaded(u) == r.user)
  {
    if store.Unavailable? then QueryPanic
    else
      var found := Select(store.rows, username);
      if |found| != 1 then AuthenticationError
      else if !matches(found[0].hashedPassword, password) then AuthenticationError
      else
        SingleMatch(store.rows, username);
        Authenticated(Loaded(found[0]))
  }

  /** When the query returns one row, every table row with the username is that row. */
  lemma SingleMatch(rows: seq<User>, username: string)
    requires |Select(rows, username)| == 1
    ensures Select(rows, username)[0] in rows
    ensures forall u :: u in rows && u.username == username ==> u == Select(rows, username)[0]
  {
    var found := Select(rows, username);
    forall u | u in rows && u.username == username
      ensures u == found[0]
    {
      assert u in found;
    }
  }

  /** No row with the username, or several, is an authentication error and
      not a panic, whatever the password. */
  lemma AmbiguousUsernameFails(username: string, password: string, rows: seq<User>,
                               matches: (Bytes, string) -> bool)
    requires |Select(rows, username)| != 1
    ensures AuthenticateUser(username, password, Table(rows), matches) == AuthenticationError
  {
  }

  // ---------------------------------------------------------------------
  // Creation and saving
  // ---------------------------------------------------------------------

  /** CreateUser: a new, not yet stored user; `hashed` is what bcrypt produced
      for the password. The id is Go's zero value until the row is stored. */
  function CreateUser(username: string, password: string, name: string, hashed: Bytes): (u: User)
    ensures u.username == username && u.password == password && u.name == name
    ensures u.hashedPassword == hashed
    ensures u.transient
  {
    User(0, username, password, name, hashed, true)
  }

  /** The write Save issues. */
  datatype WriteOp = Insert(row: User) | Update(row: User)

  /** The user after Save, the write it issued, and whether that write failed. */
  datatype SaveResult = SaveResult(user: User, op: WriteOp, failed: bool)

  /** User.Save with `writeOk` the outcome of the one write it makes: a
      transient user is inserted and stops being transient only if the insert
      succeeded; any other user is updated and keeps its flag. */
  function Save(u: User, writeOk: bool): (r: SaveResult)
    ensures r.op.Insert? <==> u.transient
    ensures r.op.row == u
    ensures r.failed <==> !writeOk
    ensures r.user.transient <==> u.transient && !writeOk
    ensures r.user == u.(transient := r.user.transient)
  {
    if u.transient then
      SaveResult(if writeOk then u.(transient := false) else u, Insert(u), !writeOk)
    else
      SaveResult(u, Update(u), !writeOk)
  }

  /** A user saved repeatedly, the i-th write having outcome oks[i]: the
      final user and every write issued, each paired with its outcome. */
  function SaveAll(u: User, oks: seq<bool>): (User, seq<(WriteOp, bool)>)
    decreases |oks|
  {
    if |oks| == 0 then (u, [])
    else
      var r := Save(u, oks[0]);
      var rest := SaveAll(r.user, oks[1..]);
      (rest.0, [(r.op, oks[0])] + rest.1)
  }

  /** How many of the writes were successful inserts. */
  function StoredInserts(writes: seq<(WriteOp, bool)>): nat {
    if |writes| == 0 then 0
    else (if writes[0].0.Insert? && writes[0].1 then 1 else 0) + StoredInserts(writes[1..])
  }

  /** Over any sequence of saves a user is inserted successfully at most once,
      a stored user is only ever updated, it stays transient exactly while no
      insert has succeeded, and no field but the flag changes. */
  lemma {:induction false} SaveInsertsOnce(u: User, oks: seq<bool>)
    ensures StoredInserts(SaveAll(u, oks).1) <= 1
    ensures !u.transient ==> StoredInserts(SaveAll(u, oks).1) == 0
    ensures !u.transient ==> forall w :: w in SaveAll(u, oks).1 ==> w.0.Update?
    ensures SaveAll(u, oks).0.transient <==> u.transient && StoredInserts(SaveAll(u, oks).1) == 0
    ensures SaveAll(u, oks).0 == u.(transient := SaveAll(u, oks).0.transient)
    decreases |oks|
  {
    if |oks| > 0 {
      var r := Save(u, oks[0]);
      SaveInsertsOnce(r.user, oks[1..]);
      var writes := SaveAll(u, oks).1;
      assert writes[1..] == SaveAll(r.user, oks[1..]).1;
    }
  }
}

=== FILE: wrappers.dfy ===
/** Optional values for oracle answers that may be missing. */
module Wrappers {

  /** The conventional Some/None datatype. */
  datatype Option<+T> = None | Some(value: T)
}
